=== FILE: README.md ===
# JobSniper AI: configuration gating and analysis history, in Dafny

This project models two pieces of the JobSniper AI application (a Streamlit
resume-analysis tool) and proves properties about them.

- **Configuration gating** (`utils/config.py`). At import time the module
  decides three things from the environment. `GEMINI_AVAILABLE` and
  `MISTRAL_AVAILABLE` say whether each AI provider's key is usable.
  `EMAIL_AVAILABLE` says whether the e-mail report feature is configured.
  It then sets `AI_PROVIDER` to "gemini", "mistral" or "fallback", in that
  order of priority. `update_email_config` stores new e-mail credentials
  and recomputes the e-mail gate. Module `Config` models the gates as
  predicates over optional strings (`None` for an unset variable). Import
  is modelled as `Load` over an `Env` value.
- **The analysis-history store** (`utils/sqlite_logger.py`). The SQLite
  file `history.db` holds two tables, `resume_logs` and
  `agent_interactions`. Module `SqliteLogger` models the file as a value
  `Store`. Each table is either absent or a `Table`. A `Table` holds its
  rows in insertion order and its AUTOINCREMENT counter. Each operation
  takes a store and returns the store it leaves behind.
  - `init_db`, `save_to_db` and `log_interaction` change the store.
  - `get_history` and `get_resume_details` read it.
  - `SQLiteLogger.log_analysis` maps an analysis dict onto a save.

  Every operation takes a flag `dbDown` for an engine error. On such an
  error the operation returns its neutral value and leaves the store
  unchanged.

Supporting modules:

- `PyText` models the parts of Python's `str` that the code uses:
  `strip`, `startswith`, `join`, slicing and `str(int)`.
- `PyValues` models the Python values callers pass in: `None`, `bool`,
  `int`, `str`, `list`, and `dict` with its keys in insertion order. It
  also gives `dict.get`, `sep.join` and `str()`. `save_to_db` branches on
  `isinstance`, and `join` raises on non-string items, so these shapes
  matter.
- `SqlCells` models how Python's sqlite3 driver binds a value and how a
  TEXT column stores it.

The store invariant `Valid` holds in every reachable store: ids are
positive, strictly increasing in insertion order, and at most the
counter. Every store operation preserves it, and the queries assume it.

## Model

| member | source | states |
|---|---|---|
| Config.GeminiAvailableIff | utils/config.py:21-27 | The Gemini key is available iff it is set, its unstripped text starts with "AIza", and it has at least 30 characters after stripping. The truthiness, placeholder and stripped-non-empty tests are implied by the others. |
| Config.MistralAvailableIff | utils/config.py:29-34 | The Mistral key is available iff it is set, is not the placeholder, and has at least 20 characters after stripping. There is no prefix or character test. |
| Config.MistralPlaceholderOnlyRejectedByEquality | utils/config.py:29-34 | The Mistral placeholder has 32 characters, is truthy, and is long enough after stripping. Only the equality test rejects it. |
| Config.EmailAvailableIff | utils/config.py:37-44 | E-mail is available iff both values are set, neither is its placeholder, and neither is whitespace only. No address syntax is checked. |
| Config.ChooseProvider | utils/config.py:46-52 | The provider is Gemini iff Gemini is available. It is Mistral iff Gemini is not available and Mistral is. Otherwise it is the fallback. |
| Config.Load | utils/config.py:9-52 | Import keeps the variables' values and defaults the SMTP server to "smtp.gmail.com". Every gate agrees with its predicate. `AI_PROVIDER` is "gemini" exactly when the Gemini key passes. |
| Config.GeminiWinsRegardlessOfMistral | utils/config.py:47-48 | While the Gemini key passes, the provider is Gemini, whatever the Mistral key is. |
| Config.UpdateEmailConfig | utils/config.py:55-78 | The two globals hold the new values. The returned flag equals the stored `EMAIL_AVAILABLE` and is the e-mail gate on the new values. Nothing else changes. |
| Config.UpdateEmailMatchesLoad | utils/config.py:37-44 | Updating after import gives exactly the globals that an import with the new values would give. |
| PyText.Strip | utils/config.py:24-25 | `strip()` cuts a string into leading whitespace, a kept middle and trailing whitespace, and returns the middle. The middle is empty or starts and ends with a non-whitespace character. It is empty iff the string is all whitespace. |
| PyText.StripIsTheTrim | utils/config.py:24-25 | Any such cut gives the same middle, so `strip()` removes exactly the outer whitespace and nothing inside. |
| PyText.JoinSplitRoundTrip | utils/sqlite_logger.py:38 | A comma-joined field loses nothing: splitting it gives the parts back, if there is at least one part and no part contains the comma. |
| PyText.PrefixKeepsShort | utils/sqlite_logger.py:151-152 | A string within the limit is kept whole by `[:n]`. Cutting twice is the same as cutting once. |
| PyText.IntToText | utils/sqlite_logger.py:38 | `str(i)` is a minus sign for a negative number, then decimal digits with no leading zero (except "0" itself) that read back as the absolute value. |
| PyValues.Get | utils/sqlite_logger.py:36-45 | `dict.get(key, default)` returns the default iff the key is missing. Otherwise it returns the value at the first entry with that key. |
| PyValues.JoinValue | utils/sqlite_logger.py:38 | `sep.join(v)` succeeds iff `v` is a `str`, a `dict`, or a list of `str` only. A list joins its items, a `str` its characters, a `dict` its keys, and the empty list gives "". `None`, `bool` and `int` raise. |
| PyValues.Str | utils/sqlite_logger.py:38 | `str(v)` is the text itself for a `str`, "None", "True" or "False", the decimal text of an `int`, and the `repr` for a list or dict. |
| PyValues.Repr | utils/sqlite_logger.py:151-152 | `repr` of `None` is "None", of a bool "True" or "False", of an int its decimal `str`, and of a `str` its quoted form. A list is its items' `repr`s joined with ", " inside brackets. A dict is its `key: value` pairs, key quoted and value as `repr`, joined with ", " inside braces. |
| PyValues.StrRepr | utils/sqlite_logger.py:151-152 | A quoted string starts and ends with the same quote, and the quote is `"` exactly when the text holds a `'` and no `"`. Reading the escapes between the quotes back gives the text. Text of plain characters is only wrapped in single quotes. |
| PyValues.UnescapeEscapeChars | utils/sqlite_logger.py:151-152 | The escapes `repr` writes (quote, backslash, `\t`, `\n`, `\r`, `\xhh`) lose nothing: decoding them gives the original text. |
| SqlCells.Bind | utils/sqlite_logger.py:52-73 | A parameter binds iff it is `None`, a `bool`, a `str`, or an `int` within 64 bits. `None` binds as NULL, a `bool` as 1 or 0, an `int` as itself, and a `str` as TEXT. |
| SqlCells.TextColumn | utils/sqlite_logger.py:11-22 | A value can be stored in a TEXT column iff it binds, and the column never holds an integer. `None` stays NULL, a `str` is kept, an `int` becomes its decimal text, and a `bool` becomes "1" or "0". |
| SqliteLogger.Insert | utils/sqlite_logger.py:11-12 | An AUTOINCREMENT insert appends one row with the store's timestamp. The new row's id is the counter plus one, which is above every existing id, and the counter advances to that id. It fails exactly when the counter is at the largest 64-bit integer. |
| SqliteLogger.InitDb | utils/sqlite_logger.py:6-26 | `init_db` creates an empty `resume_logs` when it is absent and touches nothing else. It changes nothing on an engine error. |
| SqliteLogger.InitDbIdempotent | utils/sqlite_logger.py:11 | After one successful `init_db`, another call leaves the store unchanged. |
| SqliteLogger.SkillsText | utils/sqlite_logger.py:37-38 | The `skills` text exists iff the value is not a list holding a non-`str`. A `str` is kept, `None` gives "None", an `int` its decimal text, and the empty list "". |
| SqliteLogger.SkillsSplitBack | utils/sqlite_logger.py:38 | A non-empty list of comma-free skills is stored so that splitting on "," gives the list back. |
| SqliteLogger.ResumeRowFields | utils/sqlite_logger.py:35-73 | The row is built iff `parsed_data` is a dict, its skills can be joined, and its name, education and experience can be bound. When `match_result` is a dict, its `match_percent`, `job_title` and `feedback_summary` must also bind and its `job_roles` must be joinable. |
| SqliteLogger.ResumeFieldDefaults | utils/sqlite_logger.py:35-63 | When the values can be stored, the row is built. A name, education or experience the caller passes is stored from the first entry under its key, and a missing one becomes "Unknown". Skills passed are stored as `SkillsText` of the value: comma-joined if a list, else `str(skills)`. Missing skills become "". A non-dict `match_result` gives 0 and empty strings. A dict `match_result` gives the comma-join of `job_roles`. |
| SqliteLogger.AllDefaultsRow | utils/sqlite_logger.py:35-50 | When none of the keys that are read is present, the row is built and every column is its default. |
| SqliteLogger.ResumeRowFieldsOfDict | utils/sqlite_logger.py:44-48 | With a dict `match_result`, each match column comes from the first entry under its key: `match_percent` as bound, `job_title` and `feedback_summary` as TEXT, and `suggested_jobs` as the comma-join of `job_roles`. A missing key gives 0 or "". |
| SqliteLogger.SaveToDb | utils/sqlite_logger.py:29-77 | A successful save appends exactly one row. The row carries the built fields and the store's timestamp, and its id is the table's counter plus one, above every earlier id, with the counter advanced to it. Earlier rows and the other table are unchanged. Any failure leaves the store unchanged. |
| SqliteLogger.SaveDefaultsOnFreshStore | utils/sqlite_logger.py:29-77 | On a freshly initialised file, saving an empty `parsed_data` with no match result stores exactly one all-default row, with id 1. |
| SqliteLogger.GetHistory | utils/sqlite_logger.py:80-91 | The limit defaults to 10. The result has `min(limit, n)` rows, or all rows for a negative limit. Every row is stored, ids strictly decrease, and every row left out is older than every row returned. The result is [] on an engine error, with no table, or for a limit outside 64 bits (OverflowError). |
| SqliteLogger.SaveThenHistory | utils/sqlite_logger.py:85 | Right after a successful save, `get_history(1)` returns exactly the new row. |
| SqliteLogger.DetailsRoundTrip | utils/sqlite_logger.py:103-117 | The mapping from the ten column names determines the row: the row can be read back from it. |
| SqliteLogger.GetResumeDetails | utils/sqlite_logger.py:94-121 | Details exist iff the table holds a row with that id. The keys are then exactly the ten column names, and the mapping reads back as that row. Otherwise, including on failure, the result is None. |
| SqliteLogger.SaveThenDetails | utils/sqlite_logger.py:94-117 | Right after a successful save, the new row's id finds exactly that row's details. |
| SqliteLogger.LogInteraction | utils/sqlite_logger.py:124-159 | A successful call appends one row whose id is the counter plus one (1 in a new table), with the counter advanced to it. Its input and output are prefixes of their `str()` forms, of length `min(len, 5000)`. The table exists afterwards even when the insert fails: a failed insert leaves an existing table unchanged, or else an empty new table. On an engine error nothing changes, and `resume_logs` is never touched. |
| SqliteLogger.LogInteractionPayloads | utils/sqlite_logger.py:151-152 | An input of at most 5000 characters is stored unchanged. A 6000-character input is stored as its first 5000 characters. |
| SqliteLogger.LogAnalysis | utils/sqlite_logger.py:170-188 | When the mapping and the save succeed, `log_analysis` appends one row with the store's timestamp. That row is the one `save_to_db` builds from `analysis_data.get("parsed_data", {})` and the mapped match dict. Otherwise it leaves the store unchanged. |
| SqliteLogger.AnalysisMatchResult | utils/sqlite_logger.py:177-182 | The match dict is built iff `recommendations` can be joined. |
| SqliteLogger.LogAnalysisSucceedsIff | utils/sqlite_logger.py:170-188 | `log_analysis` stores a row iff all of these hold: the engine works, the table exists and has ids left, `recommendations` and `job_suggestions` can be joined, `overall_score` and `target_job` can be bound, and `parsed_data` is a dict that `save_to_db` can store. |
| SqliteLogger.LogAnalysisOnFreshStore | utils/sqlite_logger.py:170-188 | On a freshly initialised file, an empty analysis dict stores one all-default row with id 1. |
| SqliteLogger.LogAnalysisMapping | utils/sqlite_logger.py:174-184 | `match_percent` comes from `overall_score` (default 0), and `job_title` from `target_job` (default ""). `feedback_summary` is the ", "-join of `recommendations`, and `suggested_jobs` is the ","-join of `job_suggestions`. Name, education, experience and skills come from `parsed_data` (default `{}`). |

The `SQLiteLogger` constructor (utils/sqlite_logger.py:165-168) runs `init_db`, so it is `InitDb`. The methods at utils/sqlite_logger.py:190-200 delegate to the module functions, so they are `GetHistory`, `GetResumeDetails` and `LogInteraction`.

Facts about the code that the model follows:

- `utils/config.py` checks the Mistral key only against its placeholder and for a stripped length of at least 20. There is no pattern or character test, and blanks inside the key count toward the length.
- `utils/config.py` checks the e-mail settings only for presence, placeholders and whitespace. It does not check address syntax.
- `get_history` passes `limit` straight to `LIMIT`. SQLite reads a negative `LIMIT` as no limit, so a negative limit returns all rows, and so does `GetHistory`.
- `utils/validators.py` (`FileValidator`, `APIKeyValidator`, `EmailValidator`, `InputSanitizer`, `ConfigValidator`) is not part of this model.
- `load_config` and `validate_config` are imported from `utils.config` by the UI, but `utils/config.py` does not define them.

## Left out

- Environment and file I/O: `load_dotenv`, `os.getenv`, and the `.env` write in `update_email_config` (`dotenv.set_key`). The environment's values are the model's input `Env`, and a failing `.env` write is not modelled.
- `SMTP_PORT`: its `int(...)` parse (utils/config.py:17) is not modelled.
- `COOKIE_KEY` is carried through `Load` unchanged. The file decides nothing with it.
- Config gates: the Python `and` chains can evaluate to `None` or `""` instead of `False`. The model keeps only their truthiness.
- The SQLite engine's internals: connections, SQL text and commit/close. Any engine error is the single input `dbDown`, which strikes before the operation changes anything.
- `datetime.now().isoformat()` is the input `now`.
- `SQLiteLogger.db_path` is stored but never used, because every function opens "history.db". There is one store.
- Concurrent writers from several sessions are not modelled.
- Python `float`, `bytes` and other objects among the caller's values are not modelled.
- SqliteLogger.SaveToDb: `match_percent` given as numeric-looking text stays text in the model. SQLite's INTEGER affinity would store it as a number.
- PyValues.Str: `repr` inside `str()` of a list or dict escapes the quote, backslash, tab, newline, carriage return and characters up to U+00A0. Python also escapes other non-printable characters, using Unicode data that is not modelled.
- PyValues.Str: Python 3.11's 4300-digit limit on `str(int)` is not modelled.
- `get_resume_details` is modelled with an integer id only. SQLite's conversion of a text id such as "3" is left out.
- Lone surrogates: a Python `str` read from the environment can hold one (surrogate escapes), and sqlite3 then raises `UnicodeEncodeError`, which the operations' `except` clauses catch. A Dafny `char` cannot be a surrogate, so this error path is not modelled.
- The `logging.error` and `logging.info` calls in every `except` clause and in `log_analysis` have no effect on the store and are not modelled.
- PyValues.Get: a Python dict never holds a key twice, but `PyDict` entries may. `Get` takes the first entry, and no property relies on unique keys.
- The rest of the repository is left out: UI pages, theme, sidebar, the abstract `Agent` class and the AI agents.

=== FILE: config.dfy ===
/**
 * Configuration gating (utils/config.py): which AI provider the
 * application uses and whether the e-mail feature is configured, decided
 * from the environment's values.  Each environment variable is an
 * `Option<string>`: `None` when it is unset.
 */
module Config {
  import opened Wrappers
  import opened PyText

  const GeminiPlaceholder: string := "your_actual_gemini_api_key_here"
  const MistralPlaceholder: string := "your_actual_mistral_api_key_here"
  const EmailPlaceholder: string := "your_gmail@gmail.com"
  const PasswordPlaceholder: string := "your_app_password"
  const GeminiPrefix: string := "AIza"
  const GeminiMinLength: nat := 30
  const MistralMinLength: nat := 20
  const DefaultSmtpServer: string := "smtp.gmail.com"

  /** Python truthiness of an optional string: set and non-empty. */
  predicate Truthy(v: Option<string>) {
    v.Some? && v.value != ""
  }

  /** `GEMINI_AVAILABLE`, conjunct by conjunct. */
  predicate GeminiAvailable(key: Option<string>) {
    && Truthy(key)
    && key.value != GeminiPlaceholder
    && Strip(key.value) != ""
    && |Strip(key.value)| >= GeminiMinLength
    && StartsWith(key.value, GeminiPrefix)
  }

  /** `MISTRAL_AVAILABLE`, conjunct by conjunct. */
  predicate MistralAvailable(key: Option<string>) {
    && Truthy(key)
    && key.value != MistralPlaceholder
    && Strip(key.value) != ""
    && |Strip(key.value)| >= MistralMinLength
  }

  /** `EMAIL_AVAILABLE` (and the value `update_email_config` recomputes). */
  predicate EmailAvailable(email: Option<string>, password: Option<string>) {
    && Truthy(email)
    && Truthy(password)
    && email.value != EmailPlaceholder
    && password.value != PasswordPlaceholder
    && Strip(email.value) != ""
    && Strip(password.value) != ""
  }

  /**
   * The Gemini gate reduces to three conditions: the key is set, starts
   * (before stripping) with "AIza", and is at least 30 characters long
   * once stripped.  The truthiness test, the placeholder test and the
   * stripped-non-empty test never decide anything on their own.
   */
  lemma GeminiAvailableIff(key: Option<string>)
    ensures GeminiAvailable(key) <==>
      key.Some? && StartsWith(key.value, GeminiPrefix) && |Strip(key.value)| >= GeminiMinLength
  {
    if key.Some? && StartsWith(key.value, GeminiPrefix) {
      assert key.value[0] == 'A';
      assert GeminiPlaceholder[0] == 'y';
    }
  }

  /**
   * The Mistral gate: set, not the placeholder, and at least 20 characters
   * once stripped.  There is no prefix or character-set condition.
   */
  lemma MistralAvailableIff(key: Option<string>)
    ensures MistralAvailable(key) <==>
      key.Some? && key.value != MistralPlaceholder && |Strip(key.value)| >= MistralMinLength
  {
  }

  /**
   * The Mistral placeholder passes every other conjunct (it is 32
   * characters with no surrounding whitespace), so the equality test is
   * the only thing that rejects it.
   */
  lemma MistralPlaceholderOnlyRejectedByEquality()
    ensures |MistralPlaceholder| == 32
    ensures Truthy(Some(MistralPlaceholder))
    ensures |Strip(MistralPlaceholder)| >= MistralMinLength
    ensures !MistralAvailable(Some(MistralPlaceholder))
  {
    StripOfTrimmed(MistralPlaceholder);
  }

  /**
   * The e-mail gate: both values set, neither its placeholder, and
   * neither whitespace only (which already excludes the empty string).
   * No address syntax is checked.
   */
  lemma EmailAvailableIff(email: Option<string>, password: Option<string>)
    ensures EmailAvailable(email, password) <==>
      && email.Some? && password.Some?
      && email.value != EmailPlaceholder && password.value != PasswordPlaceholder
      && !AllSpace(email.value) && !AllSpace(password.value)
  {
  }

  datatype Provider = Gemini | Mistral | Fallback {
    /** The value of `AI_PROVIDER`. */
    function Name(): string {
      match this
      case Gemini => "gemini"
      case Mistral => "mistral"
      case Fallback => "fallback"
    }
  }

  /** `AI_PROVIDER`: Gemini before Mistral before the fallback mode. */
  function ChooseProvider(geminiAvailable: bool, mistralAvailable: bool): (p: Provider)
    ensures p == Gemini <==> geminiAvailable
    ensures p == Mistral <==> !geminiAvailable && mistralAvailable
    ensures p == Fallback <==> !geminiAvailable && !mistralAvailable
  {
    if geminiAvailable then Gemini
    else if mistralAvailable then Mistral
    else Fallback
  }

  /** The environment variables the module reads. */
  datatype Env = Env(
    geminiApiKey: Option<string>,
    mistralApiKey: Option<string>,
    cookieKey: Option<string>,
    senderEmail: Option<string>,
    senderPassword: Option<string>,
    smtpServer: Option<string>)

  /** The module's globals once it has been imported. */
  datatype Settings = Settings(
    geminiApiKey: Option<string>,
    mistralApiKey: Option<string>,
    cookieKey: Option<string>,
    senderEmail: Option<string>,
    senderPassword: Option<string>,
    smtpServer: string,
    geminiAvailable: bool,
    mistralAvailable: bool,
    emailAvailable: bool,
    aiProvider: Provider)

  /** The globals follow from the key and e-mail values as at import time. */
  ghost predicate Consistent(s: Settings) {
    && s.geminiAvailable == GeminiAvailable(s.geminiApiKey)
    && s.mistralAvailable == MistralAvailable(s.mistralApiKey)
    && s.emailAvailable == EmailAvailable(s.senderEmail, s.senderPassword)
    && s.aiProvider == ChooseProvider(s.geminiAvailable, s.mistralAvailable)
  }

  /** Importing the module: read the variables and derive the gates. */
  function Load(env: Env): (s: Settings)
    ensures Consistent(s)
    ensures s.geminiApiKey == env.geminiApiKey && s.mistralApiKey == env.mistralApiKey
    ensures s.senderEmail == env.senderEmail && s.senderPassword == env.senderPassword
    ensures s.cookieKey == env.cookieKey
    ensures env.smtpServer.None? ==> s.smtpServer == DefaultSmtpServer
    ensures env.smtpServer.Some? ==> s.smtpServer == env.smtpServer.value
    ensures s.aiProvider.Name() == "gemini" <==> GeminiAvailable(env.geminiApiKey)
  {
    var g := GeminiAvailable(env.geminiApiKey);
    var m := MistralAvailable(env.mistralApiKey);
    Settings(env.geminiApiKey, env.mistralApiKey, env.cookieKey,
             env.senderEmail, env.senderPassword,
             env.smtpServer.GetOr(DefaultSmtpServer),
             g, m, EmailAvailable(env.senderEmail, env.senderPassword),
             ChooseProvider(g, m))
  }

  /** The provider is Gemini whenever Gemini is available, whatever the Mistral key. */
  lemma GeminiWinsRegardlessOfMistral(env: Env, otherMistral: Option<string>)
    ensures GeminiAvailable(env.geminiApiKey) ==>
      && Load(env).aiProvider == Gemini
      && Load(env.(mistralApiKey := otherMistral)).aiProvider == Gemini
  {
  }

  /**
   * `update_email_config(email, password)`: stores the two values in the
   * globals, recomputes `EMAIL_AVAILABLE` and returns it.  The `.env` file
   * write is outside the model.  Nothing else is recomputed.
   */
  function UpdateEmailConfig(s: Settings, email: string, password: string): (r: (Settings, bool))
    ensures r.0.senderEmail == Some(email) && r.0.senderPassword == Some(password)
    ensures r.1 == r.0.emailAvailable
    ensures r.1 <==> (&& email != "" && password != ""
                      && email != EmailPlaceholder && password != PasswordPlaceholder
                      && !AllSpace(email) && !AllSpace(password))
    ensures r.0 == s.(senderEmail := Some(email), senderPassword := Some(password),
                      emailAvailable := r.1)
  {
    var available := EmailAvailable(Some(email), Some(password));
    (s.(senderEmail := Some(email), senderPassword := Some(password),
        emailAvailable := available),
     available)
  }

  /**
   * Updating the e-mail settings after import gives exactly the globals an
   * import with those values in the environment would have given: the
   * recomputed check is the import-time check.
   */
  lemma UpdateEmailMatchesLoad(env: Env, email: string, password: string)
    ensures UpdateEmailConfig(Load(env), email, password).0
         == Load(env.(senderEmail := Some(email), senderPassword := Some(password)))
    ensures Consistent(UpdateEmailConfig(Load(env), email, password).0)
  {
  }
}

=== FILE: pytext.dfy ===
/**
 * The parts of Python's `str` behaviour the configuration and the history
 * store rely on: `str.strip()`, `str.startswith`, `sep.join(parts)`,
 * slicing `s[:n]` and the decimal form of an `int`.
 * Strings are sequences of Unicode scalar values: like Python's code
 * points, except that a lone surrogate cannot occur.
 */
module PyText {

  /** Python's `str.isspace()` for one character (the characters `str.strip()` removes). */
  predicate IsSpace(c: char) {
    var n := c as int;
    || 9 <= n <= 13
    || 0x1c <= n <= 0x20
    || n == 0x85 || n == 0xa0 || n == 0x1680
    || 0x2000 <= n <= 0x200a
    || n == 0x2028 || n == 0x2029 || n == 0x202f || n == 0x205f || n == 0x3000
  }

  /** Every character of `s` is whitespace (true of the empty string). */
  predicate AllSpace(s: string) {
    forall i :: 0 <= i < |s| ==> IsSpace(s[i])
  }

  /** `s.lstrip()`: drops the leading whitespace and nothing else. */
  function StripLeft(s: string): (r: string)
    ensures |r| <= |s| && r == s[|s| - |r|..]
    ensures r == [] || !IsSpace(r[0])
    ensures forall i :: 0 <= i < |s| - |r| ==> IsSpace(s[i])
  {
    if |s| > 0 && IsSpace(s[0]) then StripLeft(s[1..]) else s
  }

  /** `s.rstrip()`: drops the trailing whitespace and nothing else. */
  function StripRight(s: string): (r: string)
    ensures |r| <= |s| && r == s[..|r|]
    ensures r == [] || !IsSpace(r[|r| - 1])
    ensures forall i :: |r| <= i < |s| ==> IsSpace(s[i])
  {
    if |s| > 0 && IsSpace(s[|s| - 1]) then StripRight(s[..|s| - 1]) else s
  }

  /**
   * `s[i..j]` is `s` with exactly its outer whitespace removed: everything
   * before `i` and from `j` on is whitespace, and the kept part is empty or
   * starts and ends with a non-whitespace character.
   */
  predicate TrimmedAt(s: string, i: int, j: int) {
    && 0 <= i <= j <= |s|
    && (forall k :: 0 <= k < i ==> IsSpace(s[k]))
    && (forall k :: j <= k < |s| ==> IsSpace(s[k]))
    && (i == j || (!IsSpace(s[i]) && !IsSpace(s[j - 1])))
  }

  /** `s.strip()`: `s` without its leading and trailing whitespace. */
  function Strip(s: string): (r: string)
    ensures exists i, j :: TrimmedAt(s, i, j) && r == s[i..j]
    ensures r == [] <==> AllSpace(s)
  {
    var l := StripLeft(s);
    var r := StripRight(l);
    StripLeftThenRight(s, l, r);
    EmptyStripIsAllSpace(s, l, r);
    r
  }

  /**
   * Dropping leading whitespace (leaving `l`) and then trailing whitespace
   * (leaving `r`) cuts `s` at a `TrimmedAt` pair.
   */
  lemma StripLeftThenRight(s: string, l: string, r: string)
    requires |l| <= |s| && l == s[|s| - |l|..]
    requires l == [] || !IsSpace(l[0])
    requires forall k :: 0 <= k < |s| - |l| ==> IsSpace(s[k])
    requires |r| <= |l| && r == l[..|r|]
    requires r == [] || !IsSpace(r[|r| - 1])
    requires forall k :: |r| <= k < |l| ==> IsSpace(l[k])
    ensures TrimmedAt(s, |s| - |l|, |s| - |l| + |r|)
    ensures r == s[|s| - |l|..|s| - |l| + |r|]
  {
    var i := |s| - |l|;
    forall k | 0 <= k < |r|
      ensures r[k] == s[i + k]
    {
      assert r[k] == l[k];
    }
    forall k | i + |r| <= k < |s|
      ensures IsSpace(s[k])
    {
      assert s[k] == l[k - i];
    }
  }

  /** Nothing is left after stripping exactly when the string is all whitespace. */
  lemma EmptyStripIsAllSpace(s: string, l: string, r: string)
    requires l == StripLeft(s) && r == StripRight(l)
    ensures r == [] <==> AllSpace(s)
  {
    if r == [] {
      assert l == [];
    } else {
      StripLeftThenRight(s, l, r);
    }
  }

  /**
   * `strip()` removes exactly the outer whitespace: whichever way a string
   * is split into whitespace, a trimmed middle and whitespace, the middle
   * is its `strip()`.
   */
  lemma StripIsTheTrim(s: string, i: int, j: int)
    requires TrimmedAt(s, i, j)
    ensures Strip(s) == s[i..j]
  {
    var r := Strip(s);
    if !AllSpace(s) {
      var i0, j0 :| TrimmedAt(s, i0, j0) && r == s[i0..j0];
      assert i == i0 && j == j0;
    }
  }

  /** A string whose ends are not whitespace is its own `strip()`. */
  lemma StripOfTrimmed(s: string)
    requires s == [] || (!IsSpace(s[0]) && !IsSpace(s[|s| - 1]))
    ensures Strip(s) == s
  {
    StripIsTheTrim(s, 0, |s|);
  }

  /** `s.startswith(prefix)`. */
  predicate StartsWith(s: string, prefix: string) {
    |prefix| <= |s| && s[..|prefix|] == prefix
  }

  /** `sep.join(parts)` on a list of strings. */
  function Join(sep: string, parts: seq<string>): string
    decreases |parts|
  {
    if |parts| == 0 then ""
    else if |parts| == 1 then parts[0]
    else parts[0] + sep + Join(sep, parts[1..])
  }

  /** Python's `s.split(sep)` for a one-character separator: the pieces between separators. */
  function Split(s: string, sep: char): (parts: seq<string>)
    ensures |parts| >= 1
    decreases |s|
  {
    if |s| == 0 then [""]
    else
      var rest := Split(s[1..], sep);
      if s[0] == sep then [""] + rest
      else [[s[0]] + rest[0]] + rest[1..]
  }

  lemma {:induction false} SplitNoSep(s: string, sep: char)
    requires sep !in s
    ensures Split(s, sep) == [s]
    decreases |s|
  {
    if |s| > 0 {
      assert sep !in s[1..];
      SplitNoSep(s[1..], sep);
      assert [s[0]] + s[1..] == s;
    }
  }

  lemma {:induction false} SplitAppend(a: string, b: string, sep: char)
    requires sep !in a
    ensures Split(a + [sep] + b, sep) == [a] + Split(b, sep)
    decreases |a|
  {
    if |a| == 0 {
      assert a + [sep] + b == [sep] + b;
      assert ([sep] + b)[1..] == b;
    } else {
      assert (a + [sep] + b)[1..] == a[1..] + [sep] + b;
      assert sep !in a[1..];
      SplitAppend(a[1..], b, sep);
      assert [a[0]] + a[1..] == a;
    }
  }

  /**
   * Joining with a one-character separator loses nothing when no part
   * contains the separator and there is at least one part:
   * `s.split(c)` gives the parts back.  (For no parts the join is "",
   * which splits to one empty part.)
   */
  lemma {:induction false} JoinSplitRoundTrip(parts: seq<string>, sep: char)
    requires |parts| >= 1
    requires forall i :: 0 <= i < |parts| ==> sep !in parts[i]
    ensures Split(Join([sep], parts), sep) == parts
    decreases |parts|
  {
    if |parts| == 1 {
      SplitNoSep(parts[0], sep);
    } else {
      JoinSplitRoundTrip(parts[1..], sep);
      SplitAppend(parts[0], Join([sep], parts[1..]), sep);
      assert [parts[0]] + parts[1..] == parts;
    }
  }

  /** `s[:n]` for `n >= 0`. */
  function Prefix(s: string, n: nat): (r: string)
    ensures |r| == if |s| <= n then |s| else n
    ensures r <= s
  {
    if |s| <= n then s else s[..n]
  }

  /** A string already within the limit is kept whole; cutting twice is cutting once. */
  lemma PrefixKeepsShort(s: string, n: nat)
    ensures |s| <= n ==> Prefix(s, n) == s
    ensures Prefix(Prefix(s, n), n) == Prefix(s, n)
  {
  }

  /** The digit character for `d`. */
  function DigitChar(d: nat): (c: char)
    requires d < 10
    ensures c as int - '0' as int == d
  {
    "0123456789"[d]
  }

  /** The number a string of decimal digits denotes (reading a decimal back). */
  function DecimalValue(s: string): int {
    if |s| == 0 then 0
    else DecimalValue(s[..|s| - 1]) * 10 + (s[|s| - 1] as int - '0' as int)
  }

  /** The decimal digits of `n`, without sign or leading zeros. */
  function Digits(n: nat): (r: string)
    ensures |r| >= 1
    ensures forall i :: 0 <= i < |r| ==> '0' <= r[i] <= '9'
    ensures DecimalValue(r) == n
    ensures r[0] == '0' ==> n == 0
  {
    if n < 10 then [DigitChar(n)]
    else
      var r := Digits(n / 10) + [DigitChar(n % 10)];
      assert r[..|r| - 1] == Digits(n / 10);
      r
  }

  /** `str(i)` for a Python `int` (also SQLite's text form of an integer):
      an optional minus sign and the digits without leading zeros, which
      read back as the number. */
  function IntToText(i: int): (r: string)
    ensures i >= 0 ==> |r| >= 1 && DecimalValue(r) == i
    ensures i < 0 ==> |r| >= 2 && r[0] == '-' && DecimalValue(r[1..]) == -i
    ensures forall k :: (if i < 0 then 1 else 0) <= k < |r| ==> '0' <= r[k] <= '9'
    ensures r[if i < 0 then 1 else 0] == '0' ==> i == 0
  {
    if i < 0 then "-" + Digits(-i) else Digits(i)
  }
}

=== FILE: pyvalues.dfy ===
/**
 * The Python values the history store receives from its callers.  Only
 * the shapes the store distinguishes are kept: `None`, `bool`, `int`,
 * `str`, `list` and `dict` (keys are strings, kept in insertion order).
 */
module PyValues {
  import opened Wrappers
  import opened PyText

  datatype PyValue =
    | PyNone
    | PyBool(b: bool)
    | PyInt(i: int)
    | PyStr(s: string)
    | PyList(items: seq<PyValue>)
    | PyDict(entries: seq<(string, PyValue)>)

  /** Entry `i` is the first one holding `key`. */
  predicate FirstAt(entries: seq<(string, PyValue)>, key: string, i: int) {
    && 0 <= i < |entries|
    && entries[i].0 == key
    && forall j :: 0 <= j < i ==> entries[j].0 != key
  }

  /** `d.get(key, default)` on a dict: the value stored under `key`, else the default. */
  function Get(entries: seq<(string, PyValue)>, key: string, default: PyValue): (v: PyValue)
    ensures key !in Keys(entries) ==> v == default
    ensures key in Keys(entries) ==> exists i :: FirstAt(entries, key, i)
    ensures forall i :: FirstAt(entries, key, i) ==> v == entries[i].1
  {
    if |entries| == 0 then default
    else if entries[0].0 == key then
      assert FirstAt(entries, key, 0);
      entries[0].1
    else
      var v := Get(entries[1..], key, default);
      assert Keys(entries) == [entries[0].0] + Keys(entries[1..]);
      forall i | FirstAt(entries, key, i)
        ensures FirstAt(entries[1..], key, i - 1)
      {
      }
      if key in Keys(entries) then
        var i :| FirstAt(entries[1..], key, i);
        assert FirstAt(entries, key, i + 1);
        v
      else v
  }

  /** The keys of a dict, in order. */
  function Keys(entries: seq<(string, PyValue)>): (ks: seq<string>)
    ensures |ks| == |entries|
    ensures forall i :: 0 <= i < |entries| ==> ks[i] == entries[i].0
  {
    seq(|entries|, i requires 0 <= i < |entries| => entries[i].0)
  }

  /** Every item of the list is a `str`. */
  predicate AllStr(items: seq<PyValue>) {
    forall i :: 0 <= i < |items| ==> items[i].PyStr?
  }

  /** The string items of a list every item of which is a `str`. */
  function StrItems(items: seq<PyValue>): (ss: seq<string>)
    requires AllStr(items)
    ensures |ss| == |items|
    ensures forall i :: 0 <= i < |items| ==> items[i] == PyStr(ss[i])
  {
    seq(|items|, i requires 0 <= i < |items| => items[i].s)
  }

  /** The one-character strings of `s`, as iterating over a `str` yields them. */
  function Chars(s: string): (cs: seq<string>)
    ensures |cs| == |s|
    ensures forall i :: 0 <= i < |s| ==> cs[i] == [s[i]]
  {
    seq(|s|, i requires 0 <= i < |s| => [s[i]])
  }

  /** The strings iterating over a value yields, or None when iterating it
      does not yield strings (Python raises TypeError in `sep.join`). */
  function IterStrings(v: PyValue): Option<seq<string>> {
    match v
    case PyStr(s) => Some(Chars(s))
    case PyList(items) => if AllStr(items) then Some(StrItems(items)) else None
    case PyDict(entries) => Some(Keys(entries))
    case _ => None
  }

  /** A value `sep.join` accepts: a string, a dict, or a list of strings. */
  predicate Joinable(v: PyValue) {
    v.PyStr? || v.PyDict? || (v.PyList? && AllStr(v.items))
  }

  /**
   * `sep.join(v)`: joins a list's strings, a string's characters or a
   * dict's keys; None where Python raises TypeError (a list holding a
   * non-string, or `None`, a `bool` or an `int`).
   */
  function JoinValue(sep: string, v: PyValue): (r: Option<string>)
    ensures r.Some? <==> Joinable(v)
    ensures v.PyList? && AllStr(v.items) ==> r == Some(Join(sep, StrItems(v.items)))
    ensures v.PyStr? ==> r == Some(Join(sep, Chars(v.s)))
    ensures v.PyDict? ==> r == Some(Join(sep, Keys(v.entries)))
    ensures v.PyList? && v.items == [] ==> r == Some("")
  {
    match IterStrings(v)
    case Some(parts) => Some(Join(sep, parts))
    case None => None
  }

  function BoolText(b: bool): string {
    if b then "True" else "False"
  }

  /**
   * `str(v)`: a string is itself; `None`, `bool` and `int` give their
   * Python spelling; a list or dict gives its `repr`, in brackets or braces.
   */
  function Str(v: PyValue): (r: string)
    ensures v.PyStr? ==> r == v.s
    ensures v.PyNone? ==> r == "None"
    ensures v.PyBool? ==> r == (if v.b then "True" else "False")
    ensures v.PyInt? ==> r == IntToText(v.i)
    ensures v.PyList? || v.PyDict? ==> r == Repr(v)
    ensures v.PyList? ==> |r| >= 2 && r[0] == '[' && r[|r| - 1] == ']'
    ensures v.PyDict? ==> |r| >= 2 && r[0] == '{' && r[|r| - 1] == '}'
  {
    match v
    case PyNone => "None"
    case PyBool(b) => BoolText(b)
    case PyInt(i) => IntToText(i)
    case PyStr(s) => s
    case _ => Repr(v)
  }

  /**
   * `repr(v)`: a string is quoted (with the escapes of `StrRepr`), a list
   * is its items' reprs in brackets, a dict its `key: value` pairs in braces.
   */
  function Repr(v: PyValue): (r: string)
    ensures v.PyNone? ==> r == "None"
    ensures v.PyBool? ==> r == (if v.b then "True" else "False")
    ensures v.PyInt? ==> r == IntToText(v.i)
    ensures v.PyStr? ==> r == StrRepr(v.s)
    ensures v.PyList? ==> r == "[" + Join(", ", seq(|v.items|, k requires 0 <= k < |v.items| => Repr(v.items[k]))) + "]"
    ensures v.PyList? && v.items == [] ==> r == "[]"
    ensures v.PyDict? && v.entries == [] ==> r == "{}"
    ensures v.PyDict? ==> r == "{" + Join(", ", seq(|v.entries|, k requires 0 <= k < |v.entries| =>
                                   assert v.entries[k] < v;
                                   StrRepr(v.entries[k].0) + ": " + Repr(v.entries[k].1))) + "}"
    decreases v
  {
    match v
    case PyNone => "None"
    case PyBool(b) => BoolText(b)
    case PyInt(i) => IntToText(i)
    case PyStr(s) => StrRepr(s)
    case PyList(items) =>
      "[" + Join(", ", seq(|items|, k requires 0 <= k < |items| => Repr(items[k]))) + "]"
    case PyDict(entries) =>
      "{" + Join(", ", seq(|entries|, k requires 0 <= k < |entries| =>
                             assert entries[k] < v;
                             StrRepr(entries[k].0) + ": " + Repr(entries[k].1))) + "}"
  }

  /** The lower-case hexadecimal digit for `d`. */
  function HexDigit(d: nat): (c: char)
    requires d < 16
    ensures IsHexDigit(c) && HexValue(c) == d
  {
    if d < 10 then ('0' as int + d) as char else ('a' as int + d - 10) as char
  }

  predicate IsHexDigit(c: char) {
    '0' <= c <= '9' || 'a' <= c <= 'f'
  }

  /** The value of a lower-case hexadecimal digit. */
  function HexValue(c: char): nat
    requires IsHexDigit(c)
  {
    if c <= '9' then c as int - '0' as int else c as int - 'a' as int + 10
  }

  /** Two hexadecimal digits of a byte-sized code. */
  function Hex2(n: nat): (h: string)
    requires n < 256
    ensures |h| == 2 && IsHexDigit(h[0]) && IsHexDigit(h[1])
    ensures HexValue(h[0]) * 16 + HexValue(h[1]) == n
  {
    [HexDigit(n / 16), HexDigit(n % 16)]
  }

  /** A character `repr` keeps as it is inside single quotes. */
  predicate Plain(c: char) {
    c != '\'' && c != '\\' && 0x20 <= c as int && !(0x7f <= c as int <= 0xa0)
  }

  /** Python's quoting of a string in `repr`: single quotes unless the text
      holds a single quote and no double quote; the quote, backslash, tab,
      newline, carriage return and Latin-1 control characters are escaped.
      Reading the escapes back gives the string, and a string of plain
      characters is only wrapped in quotes. */
  function StrRepr(s: string): (r: string)
    ensures |r| >= 2 && r[0] == r[|r| - 1] && r[0] in {'\'', '"'}
    ensures r[0] == '"' <==> '\'' in s && '"' !in s
    ensures Unescape(r[1..|r| - 1]) == Some(s)
    ensures (forall k :: 0 <= k < |s| ==> Plain(s[k])) ==> r == "'" + s + "'"
  {
    var q := if '\'' in s && '"' !in s then '"' else '\'';
    UnescapeEscapeChars(s, q);
    EscapePlain(s, '\'');
    assert ([q] + EscapeChars(s, q) + [q])[1..|EscapeChars(s, q)| + 1] == EscapeChars(s, q);
    [q] + EscapeChars(s, q) + [q]
  }

  function EscapeChars(s: string, q: char): string {
    if |s| == 0 then ""
    else EscapeChar(s[0], q) + EscapeChars(s[1..], q)
  }

  function EscapeChar(c: char, q: char): string {
    var n := c as int;
    if c == q || c == '\\' then ['\\', c]
    else if c == '\t' then "\\t"
    else if c == '\n' then "\\n"
    else if c == '\r' then "\\r"
    else if n < 0x20 || 0x7f <= n <= 0xa0 then "\\x" + Hex2(n)
    else [c]
  }

  /** The character a one-letter escape `\e` stands for. */
  function SimpleEscape(e: char): Option<char> {
    if e == 't' then Some('\t')
    else if e == 'n' then Some('\n')
    else if e == 'r' then Some('\r')
    else if e == '\\' || e == '\'' || e == '"' then Some(e)
    else None
  }

  function Prepend(c: char, rest: Option<string>): Option<string> {
    if rest.None? then None else Some([c] + rest.value)
  }

  /** Reading the escapes of a quoted string back; None on a malformed escape. */
  function Unescape(t: string): Option<string>
    decreases |t|
  {
    if |t| == 0 then Some("")
    else if t[0] != '\\' then Prepend(t[0], Unescape(t[1..]))
    else if |t| < 2 then None
    else if t[1] == 'x' then
      if |t| < 4 || !IsHexDigit(t[2]) || !IsHexDigit(t[3]) then None
      else Prepend((HexValue(t[2]) * 16 + HexValue(t[3])) as char, Unescape(t[4..]))
    else if SimpleEscape(t[1]).None? then None
    else Prepend(SimpleEscape(t[1]).value, Unescape(t[2..]))
  }

  /** One escaped character reads back as itself. */
  lemma UnescapeEscapeChar(c: char, q: char, rest: string)
    requires q == '\'' || q == '"'
    ensures Unescape(EscapeChar(c, q) + rest) == Prepend(c, Unescape(rest))
  {
    var e := EscapeChar(c, q);
    var t := e + rest;
    var n := c as int;
    if c == q || c == '\\' || c == '\t' || c == '\n' || c == '\r' {
      assert |e| == 2 && t[0] == '\\' && t[2..] == rest;
    } else if n < 0x20 || 0x7f <= n <= 0xa0 {
      var h := Hex2(n);
      assert t[0] == '\\' && t[1] == 'x' && t[2] == h[0] && t[3] == h[1] && t[4..] == rest;
    } else {
      assert t[0] == c && t[1..] == rest;
    }
  }

  /** The escapes of `repr` lose nothing: reading them back gives the string. */
  lemma {:induction false} UnescapeEscapeChars(s: string, q: char)
    requires q == '\'' || q == '"'
    ensures Unescape(EscapeChars(s, q)) == Some(s)
    decreases |s|
  {
    if |s| > 0 {
      UnescapeEscapeChars(s[1..], q);
      UnescapeEscapeChar(s[0], q, EscapeChars(s[1..], q));
      assert [s[0]] + s[1..] == s;
    }
  }

  /** Plain characters other than the quote are not escaped. */
  lemma {:induction false} EscapePlain(s: string, q: char)
    requires q == '\''
    ensures (forall k :: 0 <= k < |s| ==> Plain(s[k])) ==> EscapeChars(s, q) == s
    decreases |s|
  {
    if |s| > 0 && forall k :: 0 <= k < |s| ==> Plain(s[k]) {
      EscapePlain(s[1..], q);
      assert [s[0]] + s[1..] == s;
    }
  }
}

=== FILE: sqlcells.dfy ===
/**
 * What SQLite does with a Python value bound as a statement parameter
 * (Python's sqlite3 driver) and stored into a column.
 */
module SqlCells {
  import opened Wrappers
  import opened PyText
  import opened PyValues

  const MaxInt64: int := 0x7fff_ffff_ffff_ffff
  const MinInt64: int := -0x8000_0000_0000_0000

  /** A Python value the driver can bind: `None`, `bool`, `str` or a 64-bit `int`. */
  predicate Bindable(v: PyValue) {
    v.PyNone? || v.PyBool? || v.PyStr? || (v.PyInt? && MinInt64 <= v.i <= MaxInt64)
  }

  /** A stored SQLite value. */
  datatype Cell = Null | IntCell(i: int) | TextCell(t: string)

  /**
   * Binding a parameter: `None` is NULL, `bool` and `int` are INTEGER
   * (`True` is 1), `str` is TEXT.  An `int` outside 64 bits raises
   * OverflowError and a list or dict is an unsupported type; both are None.
   */
  function Bind(v: PyValue): (c: Option<Cell>)
    ensures c.Some? <==> Bindable(v)
    ensures v.PyNone? ==> c == Some(Null)
    ensures v.PyBool? ==> c == Some(IntCell(if v.b then 1 else 0))
    ensures v.PyInt? && c.Some? ==> c == Some(IntCell(v.i))
    ensures v.PyStr? ==> c == Some(TextCell(v.s))
    ensures c.Some? && c.value.IntCell? ==> MinInt64 <= c.value.i <= MaxInt64
  {
    match v
    case PyNone => Some(Null)
    case PyBool(b) => Some(IntCell(if b then 1 else 0))
    case PyInt(i) => if MinInt64 <= i <= MaxInt64 then Some(IntCell(i)) else None
    case PyStr(s) => Some(TextCell(s))
    case _ => None
  }

  /** A column declared TEXT stores numbers as their text. */
  function TextAffinity(c: Cell): Cell {
    match c
    case IntCell(i) => TextCell(IntToText(i))
    case _ => c
  }

  /**
   * The value a TEXT column ends up holding for a bound parameter: NULL
   * for `None`, the text itself for a `str`, the decimal text of an `int`
   * (so `str(i)`), "1" or "0" for a `bool`; never an integer.
   */
  function TextColumn(v: PyValue): (c: Option<Cell>)
    ensures c.Some? <==> Bindable(v)
    ensures c.Some? ==> !c.value.IntCell?
    ensures v.PyNone? ==> c == Some(Null)
    ensures v.PyStr? ==> c == Some(TextCell(v.s))
    ensures v.PyInt? && c.Some? ==> c == Some(TextCell(Str(v)))
    ensures v.PyBool? ==> c == Some(TextCell(if v.b then "1" else "0"))
  {
    match Bind(v)
    case Some(cell) => Some(TextAffinity(cell))
    case None => None
  }
}

=== FILE: sqlite_logger.dfy ===
/**
 * The analysis-history store (utils/sqlite_logger.py).  The SQLite file
 * is a value: each of its two tables is absent or a sequence of rows plus
 * the AUTOINCREMENT counter SQLite keeps for it.  Every operation takes
 * the store and returns the store it leaves behind; `dbDown` stands for
 * any error the engine reports (the file cannot be opened, the disk is
 * full, the commit fails), after which the operation's own `except`
 * clause leaves the store as it was and returns its neutral value.
 * `now` is the timestamp `datetime.now().isoformat()` would give.
 */
module SqliteLogger {
  import opened Wrappers
  import opened PyText
  import opened PyValues
  import opened SqlCells

  /** A row: the id and timestamp the store assigns, and the caller's data. */
  datatype Row<R> = Row(id: int, timestamp: string, data: R)

  /** A table's rows in insertion order and its `sqlite_sequence` entry. */
  datatype Table<R> = Table(rows: seq<Row<R>>, lastId: int)

  /** The columns of `resume_logs` after `id` and `timestamp`. */
  datatype ResumeFields = ResumeFields(
    name: Cell,
    skills: string,
    education: Cell,
    experience: Cell,
    matchPercent: Cell,
    jobTitle: Cell,
    feedbackSummary: Cell,
    suggestedJobs: string)

  /** The columns of `agent_interactions` after `id` and `timestamp`. */
  datatype InteractionFields = InteractionFields(
    agentName: Cell,
    action: Cell,
    inputData: string,
    outputData: string)

  /** The database file `history.db`; `None` for a table not yet created. */
  datatype Store = Store(
    resumeLogs: Option<Table<ResumeFields>>,
    interactions: Option<Table<InteractionFields>>)

  /** A database file with no tables. */
  const EmptyStore: Store := Store(None, None)

  /** The payload limit of `log_interaction`. */
  const PayloadLimit: nat := 5000

  /**
   * What AUTOINCREMENT guarantees of a table that is only ever appended
   * to: ids are positive, strictly increasing in insertion order, and never
   * above the counter, which stays within 64 bits.
   */
  ghost predicate ValidTable<R>(t: Table<R>) {
    && 0 <= t.lastId <= MaxInt64
    && (forall i :: 0 <= i < |t.rows| ==> 1 <= t.rows[i].id <= t.lastId)
    && (forall i, j :: 0 <= i < j < |t.rows| ==> t.rows[i].id < t.rows[j].id)
  }

  ghost predicate Valid(st: Store) {
    && (st.resumeLogs.Some? ==> ValidTable(st.resumeLogs.value))
    && (st.interactions.Some? ==> ValidTable(st.interactions.value))
  }

  /**
   * An INSERT into an AUTOINCREMENT table: the new row gets the id after
   * the counter; when the counter is at the largest 64-bit integer SQLite
   * fails with SQLITE_FULL (None).
   */
  function Insert<R>(t: Table<R>, now: string, data: R): (r: Option<Table<R>>)
    requires ValidTable(t)
    ensures r.None? <==> t.lastId == MaxInt64
    ensures r.Some? ==> ValidTable(r.value)
    ensures r.Some? ==> |r.value.rows| == |t.rows| + 1 && r.value.rows[..|t.rows|] == t.rows
    ensures r.Some? ==> var n := r.value.rows[|t.rows|];
                        n.timestamp == now && n.data == data
                        && (forall i :: 0 <= i < |t.rows| ==> t.rows[i].id < n.id)
    ensures r.Some? ==> r.value.rows[|t.rows|].id == t.lastId + 1 && r.value.lastId == t.lastId + 1
  {
    if t.lastId == MaxInt64 then None
    else
      var id := t.lastId + 1;
      Some(Table(t.rows + [Row(id, now, data)], id))
  }

  /** `init_db()`: CREATE TABLE IF NOT EXISTS resume_logs. */
  function InitDb(st: Store, dbDown: bool): (st': Store)
    requires Valid(st)
    ensures Valid(st')
    ensures st'.interactions == st.interactions
    ensures dbDown || st.resumeLogs.Some? ==> st' == st
    ensures !dbDown ==> st'.resumeLogs.Some?
    ensures !dbDown && st.resumeLogs.None? ==> st'.resumeLogs == Some(Table([], 0))
  {
    if dbDown || st.resumeLogs.Some? then st
    else st.(resumeLogs := Some(Table([], 0)))
  }

  /** Once `init_db()` has succeeded, calling it again (successfully or not) changes nothing. */
  lemma InitDbIdempotent(st: Store, dbDown: bool)
    requires Valid(st)
    ensures InitDb(InitDb(st, false), dbDown) == InitDb(st, false)
  {
  }

  /** The skills value `save_to_db` can store: anything but a list holding a non-string. */
  predicate SkillsStorable(skills: PyValue) {
    !skills.PyList? || AllStr(skills.items)
  }

  /**
   * The `skills` column: `",".join(skills)` for a list, `str(skills)`
   * otherwise; None where the join raises.  A list of comma-free skills
   * can be split back into the list.
   */
  function SkillsText(skills: PyValue): (r: Option<string>)
    ensures r.Some? <==> SkillsStorable(skills)
    ensures skills.PyStr? ==> r == Some(skills.s)
    ensures skills.PyNone? ==> r == Some("None")
    ensures skills.PyInt? ==> r == Some(IntToText(skills.i))
    ensures skills.PyList? && skills.items == [] ==> r == Some("")
  {
    if skills.PyList? then JoinValue(",", skills) else Some(Str(skills))
  }

  /** A list of comma-free skills is stored so that splitting on "," gives it back. */
  lemma SkillsSplitBack(items: seq<PyValue>)
    requires AllStr(items) && |items| >= 1
    requires forall i :: 0 <= i < |items| ==> ',' !in items[i].s
    ensures SkillsText(PyList(items)).Some?
    ensures Split(SkillsText(PyList(items)).value, ',') == StrItems(items)
  {
    JoinSplitRoundTrip(StrItems(items), ',');
  }

  /** The fields of `parsed_data` `save_to_db` can store. */
  predicate ParsedStorable(p: seq<(string, PyValue)>) {
    && SkillsStorable(Get(p, "skills", PyList([])))
    && Bindable(Get(p, "name", PyStr("Unknown")))
    && Bindable(Get(p, "education", PyStr("Unknown")))
    && Bindable(Get(p, "experience", PyStr("Unknown")))
  }

  /** The fields of a dict `match_result` `save_to_db` can store; anything else is ignored. */
  predicate MatchStorable(matchResult: PyValue) {
    matchResult.PyDict? ==>
      var m := matchResult.entries;
      && Bindable(Get(m, "match_percent", PyInt(0)))
      && Bindable(Get(m, "job_title", PyStr("")))
      && Bindable(Get(m, "feedback_summary", PyStr("")))
      && Joinable(Get(m, "job_roles", PyList([])))
  }

  /**
   * The row `save_to_db(parsed_data, match_result)` would insert, or None
   * when building or binding it raises.  `parsed_data` must be a dict
   * (`.get` is called on it); `match_result` is used only when it is one.
   */
  function ResumeRowFields(parsedData: PyValue, matchResult: PyValue): (r: Option<ResumeFields>)
    ensures r.Some? <==>
      parsedData.PyDict? && ParsedStorable(parsedData.entries) && MatchStorable(matchResult)
  {
    if !parsedData.PyDict? then None
    else
      var p := parsedData.entries;
      var skills := SkillsText(Get(p, "skills", PyList([])));
      var name := TextColumn(Get(p, "name", PyStr("Unknown")));
      var education := TextColumn(Get(p, "education", PyStr("Unknown")));
      var experience := TextColumn(Get(p, "experience", PyStr("Unknown")));
      var matchPercent :=
        if matchResult.PyDict? then Bind(Get(matchResult.entries, "match_percent", PyInt(0)))
        else Some(IntCell(0));
      var suggestedJobs :=
        if matchResult.PyDict? then JoinValue(",", Get(matchResult.entries, "job_roles", PyList([])))
        else Some("");
      var jobTitle :=
        if matchResult.PyDict? then TextColumn(Get(matchResult.entries, "job_title", PyStr("")))
        else Some(TextCell(""));
      var feedback :=
        if matchResult.PyDict? then TextColumn(Get(matchResult.entries, "feedback_summary", PyStr("")))
        else Some(TextCell(""));
      if && skills.Some? && name.Some? && education.Some? && experience.Some?
         && matchPercent.Some? && suggestedJobs.Some? && jobTitle.Some? && feedback.Some?
      then Some(ResumeFields(name.value, skills.value, education.value, experience.value,
                             matchPercent.value, jobTitle.value, feedback.value, suggestedJobs.value))
      else None
  }

  /**
   * The defaults `save_to_db` fills in: "Unknown" for a missing name,
   * education or experience; the comma-join of the skills list (empty when
   * missing) or the string form of anything else; and, when
   * `match_result` is not a dict, 0 and empty strings.  When it is a
   * dict, `suggested_jobs` is the comma-join of `job_roles`.
   */
  lemma ResumeFieldDefaults(p: seq<(string, PyValue)>, matchResult: PyValue)
    ensures ParsedStorable(p) && MatchStorable(matchResult) ==> ResumeRowFields(PyDict(p), matchResult).Some?
    ensures ResumeRowFields(PyDict(p), matchResult).Some? ==>
      var f := ResumeRowFields(PyDict(p), matchResult).value;
      && ("name" !in Keys(p) ==> f.name == TextCell("Unknown"))
      && ("education" !in Keys(p) ==> f.education == TextCell("Unknown"))
      && ("experience" !in Keys(p) ==> f.experience == TextCell("Unknown"))
      && ("skills" !in Keys(p) ==> f.skills == "")
      && (forall i :: FirstAt(p, "name", i) ==> Some(f.name) == TextColumn(p[i].1))
      && (forall i :: FirstAt(p, "education", i) ==> Some(f.education) == TextColumn(p[i].1))
      && (forall i :: FirstAt(p, "experience", i) ==> Some(f.experience) == TextColumn(p[i].1))
      && (forall i :: FirstAt(p, "skills", i) ==> Some(f.skills) == SkillsText(p[i].1))
      && (Get(p, "skills", PyList([])).PyList? ==>
            Some(f.skills) == JoinValue(",", Get(p, "skills", PyList([]))))
      && (!Get(p, "skills", PyList([])).PyList? ==> f.skills == Str(Get(p, "skills", PyList([]))))
      && (!matchResult.PyDict? ==>
            && f.matchPercent == IntCell(0) && f.jobTitle == TextCell("")
            && f.feedbackSummary == TextCell("") && f.suggestedJobs == "")
      && (matchResult.PyDict? ==>
            Some(f.suggestedJobs) == JoinValue(",", Get(matchResult.entries, "job_roles", PyList([]))))
  {
  }

  /** Every column defaulted: what an empty `parsed_data` and no match result store. */
  const DefaultFields: ResumeFields :=
    ResumeFields(TextCell("Unknown"), "", TextCell("Unknown"), TextCell("Unknown"),
                 IntCell(0), TextCell(""), TextCell(""), "")

  /** With none of the keys present, the row is built, and it is all defaults. */
  lemma AllDefaultsRow(p: seq<(string, PyValue)>, matchResult: PyValue)
    requires forall i :: 0 <= i < |p| ==> p[i].0 !in ResumeFieldKeys
    requires matchResult.PyDict? ==>
      forall i :: 0 <= i < |matchResult.entries| ==> matchResult.entries[i].0 !in MatchKeys
    ensures ResumeRowFields(PyDict(p), matchResult) == Some(DefaultFields)
  {
    assert forall k :: k in ResumeFieldKeys ==> k !in Keys(p);
    if matchResult.PyDict? {
      assert forall k :: k in MatchKeys ==> k !in Keys(matchResult.entries);
    }
  }

  /** The `parsed_data` keys `save_to_db` reads. */
  const ResumeFieldKeys: set<string> := {"name", "skills", "education", "experience"}

  /** The `match_result` keys `save_to_db` reads. */
  const MatchKeys: set<string> := {"match_percent", "job_title", "feedback_summary", "job_roles"}

  /**
   * With a dict `match_result`, each match column comes from the first
   * entry under its key, and a missing key gives 0 or the empty string.
   */
  lemma ResumeRowFieldsOfDict(parsedData: PyValue, m: seq<(string, PyValue)>)
    ensures ResumeRowFields(parsedData, PyDict(m)).Some? ==>
      var f := ResumeRowFields(parsedData, PyDict(m)).value;
      && ("match_percent" !in Keys(m) ==> f.matchPercent == IntCell(0))
      && ("job_title" !in Keys(m) ==> f.jobTitle == TextCell(""))
      && ("feedback_summary" !in Keys(m) ==> f.feedbackSummary == TextCell(""))
      && ("job_roles" !in Keys(m) ==> f.suggestedJobs == "")
      && (forall i :: FirstAt(m, "match_percent", i) ==> Some(f.matchPercent) == Bind(m[i].1))
      && (forall i :: FirstAt(m, "job_title", i) ==> Some(f.jobTitle) == TextColumn(m[i].1))
      && (forall i :: FirstAt(m, "feedback_summary", i) ==> Some(f.feedbackSummary) == TextColumn(m[i].1))
      && (forall i :: FirstAt(m, "job_roles", i) ==> Some(f.suggestedJobs) == JoinValue(",", m[i].1))
  {
  }

  /** Whether `save_to_db` inserts a row. */
  ghost predicate SaveSucceeds(st: Store, parsedData: PyValue, matchResult: PyValue, dbDown: bool) {
    && !dbDown
    && st.resumeLogs.Some?
    && st.resumeLogs.value.lastId < MaxInt64
    && ResumeRowFields(parsedData, matchResult).Some?
  }

  /**
   * `save_to_db(parsed_data, match_result)`: appends exactly one row with
   * a fresh, larger id and the store's timestamp, or (on any error:
   * engine failure, missing table, a value that cannot be joined or bound,
   * a full id space) leaves the store unchanged.
   */
  function SaveToDb(st: Store, parsedData: PyValue, matchResult: PyValue, now: string, dbDown: bool): (st': Store)
    requires Valid(st)
    ensures Valid(st')
    ensures st'.interactions == st.interactions
    ensures !SaveSucceeds(st, parsedData, matchResult, dbDown) ==> st' == st
    ensures SaveSucceeds(st, parsedData, matchResult, dbDown) ==>
      var before := st.resumeLogs.value.rows;
      && st'.resumeLogs.Some?
      && |st'.resumeLogs.value.rows| == |before| + 1
      && st'.resumeLogs.value.rows[..|before|] == before
      && var n := st'.resumeLogs.value.rows[|before|];
         && n.timestamp == now
         && Some(n.data) == ResumeRowFields(parsedData, matchResult)
         && (forall i :: 0 <= i < |before| ==> before[i].id < n.id)
         && n.id == st.resumeLogs.value.lastId + 1
         && st'.resumeLogs.value.lastId == n.id
  {
    if dbDown || st.resumeLogs.None? then st
    else match ResumeRowFields(parsedData, matchResult)
      case None => st
      case Some(fields) =>
        match Insert(st.resumeLogs.value, now, fields)
        case None => st
        case Some(t) => st.(resumeLogs := Some(t))
  }

  /** A sequence read back to front. */
  function Reverse<T>(s: seq<T>): (r: seq<T>)
    ensures |r| == |s|
    ensures forall i :: 0 <= i < |s| ==> r[i] == s[|s| - 1 - i]
  {
    if |s| == 0 then [] else [s[|s| - 1]] + Reverse(s[..|s| - 1])
  }

  /** How many rows `LIMIT limit` lets through; SQLite reads a negative limit as none. */
  function LimitCount(limit: int, n: nat): (k: nat)
    ensures k <= n
    ensures 0 <= limit ==> k == if limit < n then limit else n
    ensures limit < 0 ==> k == n
  {
    if limit < 0 || limit >= n then n else limit
  }

  /**
   * `get_history(limit)`: SELECT * FROM resume_logs ORDER BY id DESC
   * LIMIT limit.  The result holds the `limit` newest rows (all rows for a
   * negative limit), newest first; it is empty when the engine fails, the
   * table does not exist, or the limit does not fit the 64-bit integer the
   * driver binds (OverflowError).
   */
  function GetHistory(st: Store, limit: int := 10, dbDown: bool := false): (rows: seq<Row<ResumeFields>>)
    requires Valid(st)
    ensures dbDown || st.resumeLogs.None? || !(MinInt64 <= limit <= MaxInt64) ==> rows == []
    ensures !dbDown && st.resumeLogs.Some? && MinInt64 <= limit <= MaxInt64 ==>
      var t := st.resumeLogs.value.rows;
      && |rows| == LimitCount(limit, |t|)
      && (forall i :: 0 <= i < |rows| ==> rows[i] in t)
      && (forall i, j :: 0 <= i < j < |rows| ==> rows[i].id > rows[j].id)
      && (forall x, i :: x in t && x !in rows && 0 <= i < |rows| ==> x.id < rows[i].id)
  {
    if dbDown || st.resumeLogs.None? || !(MinInt64 <= limit <= MaxInt64) then []
    else
      var t := st.resumeLogs.value.rows;
      var rows := Reverse(t)[..LimitCount(limit, |t|)];
      NewestAreReturned(st.resumeLogs.value, rows);
      rows
  }

  /** Every row left out of a newest-first prefix is older than every row in it. */
  lemma NewestAreReturned(t: Table<ResumeFields>, rows: seq<Row<ResumeFields>>)
    requires ValidTable(t)
    requires |rows| <= |t.rows| && rows == Reverse(t.rows)[..|rows|]
    ensures forall i :: 0 <= i < |rows| ==> rows[i] in t.rows
    ensures forall i, j :: 0 <= i < j < |rows| ==> rows[i].id > rows[j].id
    ensures forall x, i :: x in t.rows && x !in rows && 0 <= i < |rows| ==> x.id < rows[i].id
  {
    var n := |t.rows|;
    forall i | 0 <= i < |rows|
      ensures rows[i] == t.rows[n - 1 - i]
    {
    }
    LeftOutAreOlder(t, rows);
  }

  /** The rows not in the last `|rows|` positions, read newest first, come before all of them. */
  lemma LeftOutAreOlder(t: Table<ResumeFields>, rows: seq<Row<ResumeFields>>)
    requires ValidTable(t) && |rows| <= |t.rows|
    requires forall i :: 0 <= i < |rows| ==> rows[i] == t.rows[|t.rows| - 1 - i]
    ensures forall x, i :: x in t.rows && x !in rows && 0 <= i < |rows| ==> x.id < rows[i].id
  {
    var n := |t.rows|;
    forall k | n - |rows| <= k < n
      ensures t.rows[k] in rows
    {
      assert rows[n - 1 - k] == t.rows[k];
    }
    forall x, i | x in t.rows && x !in rows && 0 <= i < |rows|
      ensures x.id < rows[i].id
    {
      var j :| 0 <= j < n && t.rows[j] == x;
      assert j < n - 1 - i;
    }
  }

  /** Right after a successful save, `get_history(1)` returns exactly the new row. */
  lemma SaveThenHistory(st: Store, parsedData: PyValue, matchResult: PyValue, now: string)
    requires Valid(st)
    ensures SaveSucceeds(st, parsedData, matchResult, false) ==>
      var st' := SaveToDb(st, parsedData, matchResult, now, false);
      var h := GetHistory(st', 1, false);
      && |h| == 1
      && h[0].timestamp == now
      && Some(h[0].data) == ResumeRowFields(parsedData, matchResult)
      && h[0] == st'.resumeLogs.value.rows[|st.resumeLogs.value.rows|]
  {
    if SaveSucceeds(st, parsedData, matchResult, false) {
      var st' := SaveToDb(st, parsedData, matchResult, now, false);
      var t := st'.resumeLogs.value.rows;
      assert Reverse(t)[0] == t[|t| - 1];
    }
  }

  /** The column names of `resume_logs`, in `SELECT *` order. */
  const ResumeColumns: seq<string> :=
    ["id", "timestamp", "name", "skills", "education", "experience",
     "match_percent", "job_title", "feedback_summary", "suggested_jobs"]

  /** The row as `SELECT *` returns it. */
  function RowTuple(r: Row<ResumeFields>): (cells: seq<Cell>)
    ensures |cells| == |ResumeColumns|
  {
    [IntCell(r.id), TextCell(r.timestamp), r.data.name, TextCell(r.data.skills),
     r.data.education, r.data.experience, r.data.matchPercent, r.data.jobTitle,
     r.data.feedbackSummary, TextCell(r.data.suggestedJobs)]
  }

  /** `dict(zip(columns, row))`. */
  function Details(r: Row<ResumeFields>): (m: map<string, Cell>)
    ensures m.Keys == set c | c in ResumeColumns
    ensures forall k :: 0 <= k < |ResumeColumns| ==> m[ResumeColumns[k]] == RowTuple(r)[k]
  {
    map["id" := IntCell(r.id), "timestamp" := TextCell(r.timestamp), "name" := r.data.name,
        "skills" := TextCell(r.data.skills), "education" := r.data.education,
        "experience" := r.data.experience, "match_percent" := r.data.matchPercent,
        "job_title" := r.data.jobTitle, "feedback_summary" := r.data.feedbackSummary,
        "suggested_jobs" := TextCell(r.data.suggestedJobs)]
  }

  /** The cells of a mapping that has every column, in `SELECT *` order. */
  function Lookup(m: map<string, Cell>): (c: seq<Cell>)
    requires forall k :: 0 <= k < |ResumeColumns| ==> ResumeColumns[k] in m
    ensures |c| == |ResumeColumns|
    ensures forall k :: 0 <= k < |ResumeColumns| ==> c[k] == m[ResumeColumns[k]]
  {
    seq(|ResumeColumns|, k requires 0 <= k < |ResumeColumns| => m[ResumeColumns[k]])
  }

  /** The row a `SELECT *` tuple describes; None when a cell is of the wrong kind. */
  function RowOfTuple(c: seq<Cell>): Option<Row<ResumeFields>>
    requires |c| == |ResumeColumns|
  {
    if c[0].IntCell? && c[1].TextCell? && c[3].TextCell? && c[9].TextCell? then
      Some(Row(c[0].i, c[1].t, ResumeFields(c[2], c[3].t, c[4], c[5], c[6], c[7], c[8], c[9].t)))
    else None
  }

  /** Reading a row back out of its details mapping; None when a column is missing or of the wrong kind. */
  function RowOfDetails(m: map<string, Cell>): Option<Row<ResumeFields>> {
    if forall k :: 0 <= k < |ResumeColumns| ==> ResumeColumns[k] in m then RowOfTuple(Lookup(m))
    else None
  }

  /** The details mapping loses nothing: the row can be read back from it. */
  lemma DetailsRoundTrip(r: Row<ResumeFields>)
    ensures RowOfDetails(Details(r)) == Some(r)
  {
    var m := Details(r);
    assert Lookup(m) == RowTuple(r);
  }

  /** The first row with the given id. */
  function Find(rows: seq<Row<ResumeFields>>, id: int): (r: Option<Row<ResumeFields>>)
    ensures r.None? <==> forall i :: 0 <= i < |rows| ==> rows[i].id != id
    ensures r.Some? ==> r.value in rows && r.value.id == id
  {
    if |rows| == 0 then None
    else if rows[0].id == id then Some(rows[0])
    else Find(rows[1..], id)
  }

  /**
   * `get_resume_details(resume_id)`: the row with that id as a mapping
   * from the ten column names, or None when there is no such row, the
   * table does not exist or the engine fails.  An id outside 64 bits
   * cannot be bound (OverflowError, also None); no row has such an id.
   */
  function GetResumeDetails(st: Store, resumeId: int, dbDown: bool): (d: Option<map<string, Cell>>)
    requires Valid(st)
    ensures d.Some? <==>
      && !dbDown && st.resumeLogs.Some?
      && exists i :: 0 <= i < |st.resumeLogs.value.rows| && st.resumeLogs.value.rows[i].id == resumeId
    ensures d.Some? ==> d.value.Keys == set c | c in ResumeColumns
    ensures d.Some? ==> exists i :: 0 <= i < |st.resumeLogs.value.rows|
                          && st.resumeLogs.value.rows[i].id == resumeId
                          && RowOfDetails(d.value) == Some(st.resumeLogs.value.rows[i])
  {
    if dbDown || st.resumeLogs.None? || !(MinInt64 <= resumeId <= MaxInt64) then None
    else match Find(st.resumeLogs.value.rows, resumeId)
      case None => None
      case Some(r) =>
        DetailsRoundTrip(r);
        Some(Details(r))
  }

  /** After a successful save the new row's id finds its details. */
  lemma SaveThenDetails(st: Store, parsedData: PyValue, matchResult: PyValue, now: string)
    requires Valid(st)
    ensures SaveSucceeds(st, parsedData, matchResult, false) ==>
      var st' := SaveToDb(st, parsedData, matchResult, now, false);
      var n := st'.resumeLogs.value.rows[|st.resumeLogs.value.rows|];
      GetResumeDetails(st', n.id, false) == Some(Details(n))
  {
    if SaveSucceeds(st, parsedData, matchResult, false) {
      var st' := SaveToDb(st, parsedData, matchResult, now, false);
      var t := st'.resumeLogs.value;
      var n := t.rows[|st.resumeLogs.value.rows|];
      UniqueIds(t, n);
    }
  }

  lemma UniqueIds(t: Table<ResumeFields>, x: Row<ResumeFields>)
    requires ValidTable(t) && x in t.rows
    ensures Find(t.rows, x.id) == Some(x)
  {
    var r := Find(t.rows, x.id);
    var j :| 0 <= j < |t.rows| && t.rows[j] == r.value;
    var k :| 0 <= k < |t.rows| && t.rows[k] == x;
    assert j == k;
  }

  /** Whether `log_interaction` inserts a row (the table itself is created either way). */
  ghost predicate LogSucceeds(st: Store, agentName: PyValue, action: PyValue, dbDown: bool) {
    && !dbDown
    && (st.interactions.Some? ==> st.interactions.value.lastId < MaxInt64)
    && TextColumn(agentName).Some?
    && TextColumn(action).Some?
  }

  /**
   * `log_interaction(agent_name, action, input_data, output_data)`:
   * creates `agent_interactions` if needed and appends a row whose input
   * and output are `str(...)[:5000]`.  The CREATE TABLE is committed on
   * its own (the driver opens a transaction only for the INSERT), so a
   * failed insert still leaves the table created.
   */
  function LogInteraction(st: Store, agentName: PyValue, action: PyValue,
                          inputData: PyValue, outputData: PyValue, now: string, dbDown: bool): (st': Store)
    requires Valid(st)
    ensures Valid(st')
    ensures st'.resumeLogs == st.resumeLogs
    ensures dbDown ==> st' == st
    ensures !dbDown ==> st'.interactions.Some?
    ensures !dbDown && st.interactions.None? && !LogSucceeds(st, agentName, action, dbDown) ==>
      st'.interactions == Some(Table([], 0))
    ensures !LogSucceeds(st, agentName, action, dbDown) && st.interactions.Some? ==> st' == st
    ensures LogSucceeds(st, agentName, action, dbDown) ==>
      var before := if st.interactions.Some? then st.interactions.value.rows else [];
      && |st'.interactions.value.rows| == |before| + 1
      && st'.interactions.value.rows[..|before|] == before
      && var n := st'.interactions.value.rows[|before|];
         && n.timestamp == now
         && Some(n.data.agentName) == TextColumn(agentName)
         && Some(n.data.action) == TextColumn(action)
         && n.data.inputData <= Str(inputData)
         && |n.data.inputData| == (if |Str(inputData)| <= PayloadLimit then |Str(inputData)| else PayloadLimit)
         && n.data.outputData <= Str(outputData)
         && |n.data.outputData| == (if |Str(outputData)| <= PayloadLimit then |Str(outputData)| else PayloadLimit)
         && (forall i :: 0 <= i < |before| ==> before[i].id < n.id)
         && n.id == (if st.interactions.Some? then st.interactions.value.lastId else 0) + 1
         && st'.interactions.value.lastId == n.id
  {
    if dbDown then st
    else
      var t := if st.interactions.Some? then st.interactions.value else Table([], 0);
      var created := st.(interactions := Some(t));
      var name := TextColumn(agentName);
      var act := TextColumn(action);
      if name.None? || act.None? then created
      else
        var fields := InteractionFields(name.value, act.value,
                                        Prefix(Str(inputData), PayloadLimit),
                                        Prefix(Str(outputData), PayloadLimit));
        match Insert(t, now, fields)
        case None => created
        case Some(t') => st.(interactions := Some(t'))
  }

  /** A payload within the limit is stored unchanged; a 6000-character one is cut to 5000. */
  lemma LogInteractionPayloads(st: Store, agentName: PyValue, action: PyValue,
                               inputData: string, outputData: PyValue, now: string)
    requires Valid(st)
    requires LogSucceeds(st, agentName, action, false)
    ensures var st' := LogInteraction(st, agentName, action, PyStr(inputData), outputData, now, false);
      var n := st'.interactions.value.rows[|st'.interactions.value.rows| - 1];
      && (|inputData| <= PayloadLimit ==> n.data.inputData == inputData)
      && (|inputData| == 6000 ==> |n.data.inputData| == 5000 && n.data.inputData == inputData[..5000])
  {
    var st' := LogInteraction(st, agentName, action, PyStr(inputData), outputData, now, false);
    var n := st'.interactions.value.rows[|st'.interactions.value.rows| - 1];
    assert n.data.inputData <= inputData;
  }

  /**
   * The `match_result` dict `SQLiteLogger.log_analysis` builds from an
   * analysis dict, or None when `", ".join(recommendations)` raises.
   */
  function AnalysisMatchResult(a: seq<(string, PyValue)>): (r: Option<PyValue>)
    ensures r.Some? <==> Joinable(Get(a, "recommendations", PyList([])))
  {
    match JoinValue(", ", Get(a, "recommendations", PyList([])))
    case None => None
    case Some(feedback) =>
      Some(PyDict(MatchDict(Get(a, "overall_score", PyInt(0)), Get(a, "target_job", PyStr("")),
                            PyStr(feedback), Get(a, "job_suggestions", PyList([])))))
  }

  /** The dict literal of `log_analysis`. */
  function MatchDict(score: PyValue, title: PyValue, feedback: PyValue, roles: PyValue): seq<(string, PyValue)> {
    [("match_percent", score), ("job_title", title), ("feedback_summary", feedback), ("job_roles", roles)]
  }

  /** Whether `log_analysis` ends in a row being inserted. */
  ghost predicate LogAnalysisSucceeds(st: Store, analysisData: PyValue, dbDown: bool) {
    && analysisData.PyDict?
    && AnalysisMatchResult(analysisData.entries).Some?
    && SaveSucceeds(st, Get(analysisData.entries, "parsed_data", PyDict([])),
                    AnalysisMatchResult(analysisData.entries).value, dbDown)
  }

  /**
   * `SQLiteLogger.log_analysis(analysis_data, filename)`: saves
   * `analysis_data["parsed_data"]` with a `match_result` mapped from the
   * analysis; `filename` is only logged.  Any error leaves the store as it was.
   */
  function LogAnalysis(st: Store, analysisData: PyValue, filename: string, now: string, dbDown: bool): (st': Store)
    requires Valid(st)
    ensures Valid(st')
    ensures st'.interactions == st.interactions
    ensures !LogAnalysisSucceeds(st, analysisData, dbDown) ==> st' == st
    ensures LogAnalysisSucceeds(st, analysisData, dbDown) ==>
      && st'.resumeLogs.Some?
      && |st'.resumeLogs.value.rows| == |st.resumeLogs.value.rows| + 1
      && st'.resumeLogs.value.rows[..|st.resumeLogs.value.rows|] == st.resumeLogs.value.rows
      && st'.resumeLogs.value.rows[|st.resumeLogs.value.rows|].timestamp == now
      && Some(st'.resumeLogs.value.rows[|st.resumeLogs.value.rows|].data)
         == ResumeRowFields(Get(analysisData.entries, "parsed_data", PyDict([])),
                            AnalysisMatchResult(analysisData.entries).value)
  {
    if !analysisData.PyDict? then st
    else match AnalysisMatchResult(analysisData.entries)
      case None => st
      case Some(m) => SaveToDb(st, Get(analysisData.entries, "parsed_data", PyDict([])), m, now, dbDown)
  }

  /**
   * The field mapping of `log_analysis`: `match_percent` from
   * `overall_score` (0 when missing), `job_title` from `target_job` (""
   * when missing), `feedback_summary` the ", "-join of `recommendations`
   * and `suggested_jobs` the ","-join of `job_suggestions`.
   */
  lemma LogAnalysisMapping(st: Store, a: seq<(string, PyValue)>, filename: string, now: string)
    requires Valid(st)
    ensures LogAnalysisSucceeds(st, PyDict(a), false) ==>
      var st' := LogAnalysis(st, PyDict(a), filename, now, false);
      var n := st'.resumeLogs.value.rows[|st.resumeLogs.value.rows|];
      && Some(n.data.matchPercent) == Bind(Get(a, "overall_score", PyInt(0)))
      && ("overall_score" !in Keys(a) ==> n.data.matchPercent == IntCell(0))
      && Some(n.data.jobTitle) == TextColumn(Get(a, "target_job", PyStr("")))
      && ("target_job" !in Keys(a) ==> n.data.jobTitle == TextCell(""))
      && Some(n.data.feedbackSummary) ==
           Some(TextCell(JoinValue(", ", Get(a, "recommendations", PyList([]))).value))
      && Some(n.data.suggestedJobs) == JoinValue(",", Get(a, "job_suggestions", PyList([])))
      && var p := Get(a, "parsed_data", PyDict([])).entries;
         && Some(n.data.name) == TextColumn(Get(p, "name", PyStr("Unknown")))
         && Some(n.data.education) == TextColumn(Get(p, "education", PyStr("Unknown")))
         && Some(n.data.experience) == TextColumn(Get(p, "experience", PyStr("Unknown")))
         && Some(n.data.skills) == SkillsText(Get(p, "skills", PyList([])))
  {
    if LogAnalysisSucceeds(st, PyDict(a), false) {
      var parsed := Get(a, "parsed_data", PyDict([]));
      var feedback := JoinValue(", ", Get(a, "recommendations", PyList([]))).value;
      AnalysisMatchStorable(a);
      MatchDictRow(parsed.entries, Get(a, "overall_score", PyInt(0)), Get(a, "target_job", PyStr("")),
                   PyStr(feedback), Get(a, "job_suggestions", PyList([])));
    }
  }

  /**
   * When `log_analysis` stores a row: the engine works, `resume_logs`
   * exists and has ids left, the analysis is a dict whose
   * `recommendations` and `job_suggestions` can be joined, whose
   * `overall_score` and `target_job` can be bound, and whose `parsed_data`
   * is a dict `save_to_db` can store.
   */
  lemma LogAnalysisSucceedsIff(st: Store, a: seq<(string, PyValue)>, dbDown: bool)
    ensures LogAnalysisSucceeds(st, PyDict(a), dbDown) <==>
      && !dbDown && st.resumeLogs.Some? && st.resumeLogs.value.lastId < MaxInt64
      && Joinable(Get(a, "recommendations", PyList([])))
      && Joinable(Get(a, "job_suggestions", PyList([])))
      && Bindable(Get(a, "overall_score", PyInt(0)))
      && Bindable(Get(a, "target_job", PyStr("")))
      && Get(a, "parsed_data", PyDict([])).PyDict?
      && ParsedStorable(Get(a, "parsed_data", PyDict([])).entries)
  {
    if Joinable(Get(a, "recommendations", PyList([]))) {
      AnalysisMatchStorable(a);
    }
  }

  /** The built `match_result` can be stored iff the analysis values it copies can. */
  lemma AnalysisMatchStorable(a: seq<(string, PyValue)>)
    requires Joinable(Get(a, "recommendations", PyList([])))
    ensures AnalysisMatchResult(a).Some?
    ensures MatchStorable(AnalysisMatchResult(a).value) <==>
      && Bindable(Get(a, "overall_score", PyInt(0)))
      && Bindable(Get(a, "target_job", PyStr("")))
      && Joinable(Get(a, "job_suggestions", PyList([])))
  {
    AnalysisMatchEntries(a);
  }

  /**
   * On a fresh database, saving an empty `parsed_data` with no match result
   * stores one all-default row with id 1.
   */
  lemma SaveDefaultsOnFreshStore(now: string)
    ensures var st := InitDb(EmptyStore, false);
      Valid(st) && SaveToDb(st, PyDict([]), PyNone, now, false).resumeLogs
        == Some(Table([Row(1, now, DefaultFields)], 1))
  {
    AllDefaultsRow([], PyNone);
  }

  /**
   * On a fresh database, logging an empty analysis dict stores one row
   * with id 1: all defaults, since `recommendations` and `job_suggestions`
   * default to empty lists, which join to "".
   */
  lemma LogAnalysisOnFreshStore(filename: string, now: string)
    ensures var st := InitDb(EmptyStore, false);
      Valid(st) && LogAnalysis(st, PyDict([]), filename, now, false).resumeLogs
        == Some(Table([Row(1, now, DefaultFields)], 1))
  {
    var e := MatchDict(PyInt(0), PyStr(""), PyStr(""), PyList([]));
    DefaultMatchRow();
    var st := InitDb(EmptyStore, false);
    assert LogAnalysis(st, PyDict([]), filename, now, false)
        == SaveToDb(st, PyDict([]), PyDict(e), now, false);
  }

  /** The match dict an empty analysis gives stores the all-default row. */
  lemma DefaultMatchRow()
    ensures AnalysisMatchResult([]) == Some(PyDict(MatchDict(PyInt(0), PyStr(""), PyStr(""), PyList([]))))
    ensures ResumeRowFields(PyDict([]), PyDict(MatchDict(PyInt(0), PyStr(""), PyStr(""), PyList([]))))
            == Some(DefaultFields)
  {
    MatchDictRow([], PyInt(0), PyStr(""), PyStr(""), PyList([]));
  }

  /** The row `save_to_db` builds from the `log_analysis` dict literal. */
  lemma MatchDictRow(p: seq<(string, PyValue)>, score: PyValue, title: PyValue, feedback: PyValue, roles: PyValue)
    ensures ParsedStorable(p) && Bindable(score) && Bindable(title) && Bindable(feedback) && Joinable(roles) ==>
      var f := ResumeRowFields(PyDict(p), PyDict(MatchDict(score, title, feedback, roles)));
      && f.Some?
      && Some(f.value.matchPercent) == Bind(score)
      && Some(f.value.jobTitle) == TextColumn(title)
      && Some(f.value.feedbackSummary) == TextColumn(feedback)
      && Some(f.value.suggestedJobs) == JoinValue(",", roles)
  {
    var e := MatchDict(score, title, feedback, roles);
    MatchDictEntries(score, title, feedback, roles);
    DictMatchColumns(p, e);
  }

  /** With a dict `match_result`, the match columns are what `get` reads from it. */
  lemma DictMatchColumns(p: seq<(string, PyValue)>, m: seq<(string, PyValue)>)
    ensures ResumeRowFields(PyDict(p), PyDict(m)).Some? ==>
      var f := ResumeRowFields(PyDict(p), PyDict(m)).value;
      && Some(f.matchPercent) == Bind(Get(m, "match_percent", PyInt(0)))
      && Some(f.jobTitle) == TextColumn(Get(m, "job_title", PyStr("")))
      && Some(f.feedbackSummary) == TextColumn(Get(m, "feedback_summary", PyStr("")))
      && Some(f.suggestedJobs) == JoinValue(",", Get(m, "job_roles", PyList([])))
  {
  }


  /** Reading the built `match_result` back gives the analysis values it was built from. */
  lemma AnalysisMatchEntries(a: seq<(string, PyValue)>)
    requires Joinable(Get(a, "recommendations", PyList([])))
    ensures AnalysisMatchResult(a).Some?
    ensures var e := AnalysisMatchResult(a).value.entries;
      && Get(e, "match_percent", PyInt(0)) == Get(a, "overall_score", PyInt(0))
      && Get(e, "job_title", PyStr("")) == Get(a, "target_job", PyStr(""))
      && Get(e, "feedback_summary", PyStr(""))
           == PyStr(JoinValue(", ", Get(a, "recommendations", PyList([]))).value)
      && Get(e, "job_roles", PyList([])) == Get(a, "job_suggestions", PyList([]))
  {
    var feedback := JoinValue(", ", Get(a, "recommendations", PyList([]))).value;
    MatchDictEntries(Get(a, "overall_score", PyInt(0)), Get(a, "target_job", PyStr("")),
                     PyStr(feedback), Get(a, "job_suggestions", PyList([])));
  }

  lemma MatchDictEntries(score: PyValue, title: PyValue, feedback: PyValue, roles: PyValue)
    ensures var e := MatchDict(score, title, feedback, roles);
      && Get(e, "match_percent", PyInt(0)) == score
      && Get(e, "job_title", PyStr("")) == title
      && Get(e, "feedback_summary", PyStr("")) == feedback
      && Get(e, "job_roles", PyList([])) == roles
  {
    var e := MatchDict(score, title, feedback, roles);
    MatchKeysDistinct();
    assert FirstAt(e, "match_percent", 0);
    assert FirstAt(e, "job_title", 1);
    assert FirstAt(e, "feedback_summary", 2);
    assert FirstAt(e, "job_roles", 3);
  }

  /** The four keys of the `log_analysis` dict literal are different strings. */
  lemma MatchKeysDistinct()
    ensures "match_percent" != "job_title" && "match_percent" != "feedback_summary"
    ensures "match_percent" != "job_roles" && "job_title" != "feedback_summary"
    ensures "job_title" != "job_roles" && "feedback_summary" != "job_roles"
  {
    assert "job_title"[4] != "job_roles"[4];
  }
}

=== FILE: wrappers.dfy ===
/** Optional values, used for Python's `None` and for operations that may fail. */
module Wrappers {

  datatype Option<+T> = None | Some(value: T) {

    /** The wrapped value, or `default` when there is none. */
    function GetOr(default: T): T {
      match this
      case Some(v) => v
      case None => default
    }
  }
}
